=== FILE: README.md ===
# JSON-RPC plumbing of the Nekoton browser extension, in Dafny

This project models the JSON-RPC transport core of the extension, found in
`src/shared/utils.ts`. That core has six parts:

- **Id counter.** `getUniqueId` is a process-wide counter that steps by one modulo 4294967295.
- **Id-remap middleware.** It swaps the caller's request id for a fresh one and puts it back on the way home.
- **Correlation engine.** `createStreamMiddleware` pushes each request onto a stream and files it in `idMap`. It matches every message written back either as a notification or as a response to a pending call.
- **Error normalisation.** It covers `NekotonRpcError`, `serializeError`, `assignOriginalError` and the error middleware. Any thrown value becomes an object with `code`, `message` and optional `data`, the shape of section 5.1 of the JSON-RPC 2.0 Specification. The code is an integer only on the NekotonRpcError and fallback paths (an object with its own `code` keeps it as is), and the message is non-empty when the fallback's is.
- **`SafeEventEmitter.emit`.** It calls listeners over a snapshot copy of the listener array.
- **Two smaller pieces.** `PortDuplexStream` encodes buffers for the port, and `getRpcPromiseCallback` settles a promise from a response.

The modules:

- `Js` holds the JavaScript values the core handles, with truthiness, `typeof`, property reads and string conversion.
  - String conversion matters: `idMap[id]` keys an entry by `String(id)`. So `1` and `"1"` share an entry, as in JavaScript.
  - Numbers are either integral below 10^21 (`Int`), NaN, or `Spelled` by their JavaScript text.
- `RpcErrors` covers the constructor check, `serialize`, `serializeError` and `assignOriginalError`.
- `Emitter` covers `arrayClone` and `SafeEventEmitter.emit`. Listeners are opaque identities, and every call made is recorded in order.
- `Rpc` holds the request and response objects, which middlewares share by reference and update in place, plus `getRpcPromiseCallback`.
- `StreamMiddleware` has two layers:
  - the correlation table as a pure function (`Deliver`) with its lemmas;
  - a class whose methods update `idMap`, the outbound queue and the queue of scheduled `end` callbacks.
- `Middleware` holds the id counter, the id-remap middleware and the error middleware.
- `PortStream` holds `PortDuplexStream`. Its payload is a tagged union (binary or structured) instead of a run-time `Buffer.isBuffer` test.
- `Exchange` holds whole round trips through the remap middleware and the correlation engine.

Some behaviour of the code is easy to miss. The model follows the code in each case:

- A message is a notification when its `id` is falsy, not only when it is absent. So `0`, `""` and `false` count too.
  - `getUniqueId` returns 0 when it wraps. The answer to that request then goes to the notification path and the call stays pending for good (`Exchange.WrappedIdStaysPending`).
- An unknown response id does not raise a warning. It becomes an error passed to the stream's write callback.
- An id object with its own `toString` key has no string form: JavaScript skips the non-callable `toString`, gets the object back from `valueOf`, and throws a TypeError. Filing such a request id throws after the push, and such a response id reaches the write callback as a TypeError.
- Some ids name a property of `Object.prototype` (`"toString"`, `"constructor"`, ...). When no entry exists for such an id, the lookup finds the inherited member, and the write callback gets a TypeError instead of the "Unknown response id" error.
- `serializeError` never copies a stack: it compares `typeof stack` with `'stack'`.
- When the remap middleware restores a request that had no `id`, it leaves an explicit `id: undefined` behind.

## Model

| member | source | states |
|---|---|---|
| Middleware.IdCounter.constructor | src/shared/utils.ts:20 | the counter starts at the seed, which lies in [0, MAX) |
| Middleware.IdCounter.GetUniqueId | src/shared/utils.ts:22-25 | the returned id is (previous counter + 1) mod MAX, lies in [0, MAX), and the counter is left equal to it |
| Middleware.IdAfterIsOffset | src/shared/utils.ts:22-25 | k calls advance the counter by k modulo MAX |
| Middleware.IdsDistinctWithinCycle | src/shared/utils.ts:18-25 | up to MAX consecutive calls hand out pairwise distinct ids |
| Middleware.CounterWrapsToZero | src/shared/utils.ts:18-25 | the id after MAX - 1 is 0 |
| RpcErrors.RpcErrorCode.Ordinal | src/shared/utils.ts:27-33 | the enum numbers its members 0 to 4; INTERNAL is 0 and INVALID_REQUEST is 2 |
| Emitter.SafeEventEmitter.SafeApply | src/shared/utils.ts:45-58 | a listener is called once with the arguments; its exception never escapes |
| Emitter.ArrayClone | src/shared/utils.ts:60-67 | returns a new array with the same elements in the same order |
| Emitter.UnhandledError | src/shared/utils.ts:80-92 | an unhandled 'error' event throws an Error: the first argument itself when it is an Error; a TypeError when the argument's `message` has no string form; otherwise an Error whose message is "Unhandled error." when the argument is falsy |
| Emitter.SafeEventEmitter.Emit | src/shared/utils.ts:69-112 | 'error' with no error listener throws; an event type nobody listens to returns false; otherwise each listener of the snapshot is called once, in order, and the call returns true |
| PortStream.PortDuplexStream.constructor | src/shared/utils.ts:146-154 | a new stream has posted nothing and pushed nothing |
| PortStream.PortDuplexStream.OnMessage | src/shared/utils.ts:156-163 | every inbound payload is pushed, a buffer as a copy of its bytes |
| PortStream.PortDuplexStream.OnDisconnect | src/shared/utils.ts:150-153 | a disconnect destroys the stream and the port accepts no more posts |
| PortStream.WireForm | src/shared/utils.ts:175-181 | a buffer is posted as exactly `{type: 'Buffer', data, _isBuffer: true}` with its bytes as `data` and no other key; anything else is posted unchanged |
| PortStream.WireFormRoundTrip | src/shared/utils.ts:175-181 | the wire form is decodable: `FromWire` is a left inverse of the encoding, for every buffer and every structured message not shaped like a tagged buffer |
| PortStream.PortDuplexStream.Write | src/shared/utils.ts:173-186 | on a live port the wire form is posted and the callback gets no error; on a dead port nothing is posted and the callback gets the "disconnected" error |
| Rpc.RpcPromiseCallback | src/shared/utils.ts:205-215 | rejects iff `error` or `response.error` is truthy, with `error` taking precedence; otherwise resolves the whole response when `unwrapResult` is false or the response is an array, and `response.result` in every other case; a nullish response without `error` throws |
| StreamMiddleware.StreamMiddleware.constructor | src/shared/utils.ts:264-272 | the table and both queues start empty, with a fresh emitter |
| StreamMiddleware.StreamMiddleware.Middleware | src/shared/utils.ts:274-277 | pushes the request; files exactly one entry `{req, res, next, end}` under `String(req.id)` and nothing else, or, when `req.id` has no string form, throws a TypeError after the push and leaves the table alone |
| StreamMiddleware.RouteOf | src/shared/utils.ts:290-297 | a nullish message cannot be read; a message without a truthy id is a notification; a truthy id with no string form cannot be used as a key; anything else is a response, always an object with an own `id` |
| StreamMiddleware.Deliver | src/shared/utils.ts:304-313 | a response whose key is filed removes exactly that key and completes that entry; every other message leaves the table unchanged; an id with no string form and an unfiled inherited name are TypeErrors, and any other unfiled key an "Unknown response id" error |
| StreamMiddleware.OwnToStringIdIsTypeError | src/shared/utils.ts:304-305 | a response id with its own `toString` key is a TypeError that leaves the table alone, even when an entry sits under "[object Object]" |
| StreamMiddleware.StreamMiddleware.ProcessResponse | src/shared/utils.ts:304-313 | matches the table change of Deliver; a completed entry's response object gets the message's fields merged in, its `end` is scheduled, and no other response object changes |
| StreamMiddleware.StreamMiddleware.ProcessNotification | src/shared/utils.ts:315-317 | the message is emitted as 'notification' to the current listeners |
| StreamMiddleware.StreamMiddleware.ProcessMessage | src/shared/utils.ts:285-302 | every failure goes to the callback rather than being thrown; notifications never touch the table or any response; table, merge and scheduling follow Deliver |
| StreamMiddleware.RegisterThenRespond | src/shared/utils.ts:274-313 | filing a call and then receiving its response completes exactly that entry and, for a new key, leaves the table as it was |
| StreamMiddleware.ResponseCompletesOnce | src/shared/utils.ts:304-313 | a response completes its call once; delivering it again is a fault and changes nothing |
| StreamMiddleware.DeliveriesCommute | src/shared/utils.ts:304-313 | messages that are not responses for the same key can be handled in either order, with the same table and outcomes |
| StreamMiddleware.IntegerIdsHaveDistinctKeys | src/shared/utils.ts:276 | distinct integral ids never share an entry |
| StreamMiddleware.NumericAndStringIdsShareKey | src/shared/utils.ts:305 | a numeric id and its decimal string share one entry |
| StreamMiddleware.FalsyIdIsNotification | src/shared/utils.ts:292-294 | an object message whose id is falsy (0 included) leaves the table unchanged and completes nothing |
| Middleware.InvalidRequestError | src/shared/utils.ts:323-326 | the error the middleware builds passes the constructor's checks and carries code INVALID_REQUEST (2), the fixed message and no data |
| Middleware.ErrorMiddleware | src/shared/utils.ts:321-328 | sets `res.error` to the INVALID_REQUEST error exactly when `req.method` is falsy, and otherwise leaves the response alone |
| Middleware.ErrorReturnHandler | src/shared/utils.ts:329-336 | logs exactly when `res.error` is truthy and its message has a string form, with that message in the line; throws exactly when the message has none |
| Middleware.IdRemapForward | src/shared/utils.ts:341-345 | request and response both carry the fresh id from the counter; the handler keeps the caller's original id |
| Middleware.IdRemapReturn | src/shared/utils.ts:346-350 | request and response both get the original id back |
| Middleware.RemapRestoresFields | src/shared/utils.ts:340-352 | remap then restore changes no field but `id`; an object that had an id gets it back exactly, and one without gets `id: undefined` |
| RpcErrors.NewRpcError | src/shared/utils.ts:365-378 | construction succeeds iff `code` is an integer and `message` a non-empty string, with the specific error for each failed check |
| RpcErrors.Serialize | src/shared/utils.ts:380-392 | always has `code` and `message`; has `data` iff data is not undefined, and `stack` iff the stack is non-empty |
| RpcErrors.AssignOriginalError | src/shared/utils.ts:472-477 | a non-array object becomes a plain object with exactly its enumerable own properties; anything else is returned as is |
| RpcErrors.ToObject | src/shared/utils.ts:354-359 | the object form of an error has own `code` and `message`, and `data` or `stack` keys exactly when they are present |
| RpcErrors.SerializeError | src/shared/utils.ts:404-459 | throws exactly when the fallback is invalid; a NekotonRpcError gives its `serialize()`; other values never get a stack; a coded object keeps its code, others get the fallback's integral code; a coded object without a usable message gets the placeholder message and `originalError` data; any other value gets its own usable message or else the fallback's, and `originalError` data; the message is non-empty when the fallback's is; `originalError` data is dropped only for an object with its own code and a usable message |
| RpcErrors.ConformingErrorKept | src/shared/utils.ts:422-436 | an object with its own code and a non-empty string message keeps both, and keeps `data` exactly when it is an own key |
| RpcErrors.NormalisedShapeRoundTrip | src/shared/utils.ts:404-459 | serialising an already normalised error object gives back its code, message and data, without any stack |
| RpcErrors.RpcErrorRoundTrip | src/shared/utils.ts:380-392 | a NekotonRpcError's serialized object classifies back to the same code, message and data |
| RpcErrors.StackNeverCopied | src/shared/utils.ts:452-456 | `shouldIncludeStack` changes nothing for any value, a NekotonRpcError included, because no value ever gets a stack copied and `serialize()` ignores the flag |
| Exchange.RemappedExchange | src/shared/utils.ts:340-352 | a remapped call filed, answered under its fresh id and restored: the table is as before, `end` is scheduled once, and the response carries the caller's id and the result |
| Exchange.WrappedIdStaysPending | src/shared/utils.ts:22-25 | when the counter wraps, the call is filed under id 0 and nothing else in the table changes; its answer is emitted to the current 'notification' listeners instead, nothing is scheduled, and the entry stays pending |
| Exchange.AnsweredInReverseOrder | src/shared/utils.ts:304-313 | two calls answered in reverse order each get their own result, both complete, and the table returns to its state before the calls |

## Left out

- src/app/contentscript.ts is not part of this model. It wires the streams through the `obj-multiplex`, `pump` and `post-message-stream` libraries, so the channel multiplexer and the bridge live in code that is not shown.
- The JSON-RPC engine in `src/shared/jrpc` is not part of this model. It calls the middlewares and their return handlers, and the `Exchange` methods call them in the order the engine does.
- `createEngineStream`, `nodeify`, `logStreamDisconnectWarning`, `jsonify` and `stringifyReplacer` are not modelled. They are glue around that engine, `promise-to-callback`, console logging and `fast-safe-stringify`.
- Timers: `setTimeout(context.end)` is modelled as appending `end` to a queue. The re-throw of a listener's exception in `safeApply` is not modelled, because listeners are opaque identities that cannot throw in the model.
- `Math.random()` seeding of the counter is not modelled. The seed is a parameter in [0, MAX).
- Stack traces come from the runtime. The `stack` of a NekotonRpcError is a parameter, and the Error that `emit` creates for an unhandled 'error' event carries none.
- Pending calls outlive a disconnect. The code neither resolves nor rejects them, and the model has nothing beyond the entries staying in `idMap`.
- StreamMiddleware.StreamMiddleware.Middleware: a request id whose key is `"__proto__"` replaces the prototype of `idMap` in JavaScript instead of adding an entry. The model files it like any other key.
- StreamMiddleware.StreamMiddleware.ProcessResponse: the merge treats an own `"__proto__"` key of a response like any other field, whereas `Object.assign` would set the target's prototype.
- PortStream.PortDuplexStream.Write: only a disconnected port makes `postMessage` fail in the model. A message the port cannot clone is not modelled.
- Property reads see own data properties and what `Error.prototype` supplies (`name`, `message`). Getters, functions, symbols and other inherited members are not values of the model.
- A `Spelled` number is assumed to carry the text JavaScript gives it. Arithmetic on such numbers is never needed.
- `NekotonRpcError.toString` (src/shared/utils.ts:394-396) renders `serialize()` with `fast-safe-stringify`. The model does not compute that rendering: it is the `rendered` field, given when the error is built, and it is what a NekotonRpcError turns into when used as a property key or in a template string.
- PortStream.FromWire: the receiving side (`_onMessage`) rebuilds a buffer with `Buffer.isBuffer` and `Buffer.from`, which are library code. `FromWire` shows only that the wire form can be decoded, not that the receiver decodes it this way.

=== FILE: emitter.dfy ===
/**
 * SafeEventEmitter: Node's EventEmitter with an `emit` that dispatches over a
 * snapshot of the listener list and never lets a listener's exception escape.
 * Listeners are opaque: the model records which one was called with which
 * arguments, in order.
 */
module Emitter {
  import opened Wrappers
  import opened Js

  /** The identity of a registered listener function. */
  type Listener = nat

  /** An `_events` entry: one function, or an array of them. */
  datatype Handler = Single(listener: Listener) | Several(listeners: array<Listener>)

  /** One call of a listener with the emitted arguments. */
  datatype Invocation = Invocation(listener: Listener, args: seq<Value>)

  /** `emit` either returns whether someone listened, or throws. */
  datatype EmitOutcome = Returned(handled: bool) | Threw(error: Value)

  /** The listeners a handler stands for, in registration order. */
  function Listeners(h: Handler): seq<Listener>
    reads if h.Several? then {h.listeners} else {}
  {
    match h
    case Single(l) => [l]
    case Several(a) => a[..]
  }

  function Calls(listeners: seq<Listener>, args: seq<Value>): seq<Invocation>
  {
    seq(|listeners|, i requires 0 <= i < |listeners| => Invocation(listeners[i], args))
  }

  /** Errors, including NekotonRpcError instances, are `instanceof Error`. */
  predicate IsErrorInstance(v: Value)
  {
    (v.Obj? && v.kind == ErrorLike) || v.RpcErr?
  }

  /**
   * What an unhandled 'error' event throws: the first argument when it is an
   * Error, otherwise a new Error whose message mentions the argument's
   * `message` and whose `context` is the argument. Building that message
   * throws a TypeError instead when the `message` has no string form.
   */
  function UnhandledError(args: seq<Value>): (e: Value)
    ensures IsErrorInstance(e)
    ensures |args| > 0 && IsErrorInstance(args[0]) ==> e == args[0]
    ensures |args| > 0 && !IsErrorInstance(args[0]) && Truthy(args[0]) && !StringConvertible(Get(args[0], "message")) ==>
      e == ConversionTypeError
    ensures (|args| == 0 || !Truthy(args[0])) ==> e.Obj? && Get(e, "message") == Str("Unhandled error.")
  {
    var er := if |args| > 0 then args[0] else Undefined;
    if IsErrorInstance(er) then er
    else if Truthy(er) && !StringConvertible(Get(er, "message")) then ConversionTypeError
    else
      var detail := if Truthy(er) then " (" + ToJsString(Get(er, "message")) + ")" else "";
      assert !Truthy(er) ==> "Unhandled error." + detail == "Unhandled error.";
      Obj(map["message" := Field(Str("Unhandled error." + detail), false),
              "context" := Field(er, true)], ErrorLike)
  }

  /** `arrayClone`: an index-by-index copy into a new array. */
  method ArrayClone(arr: array<Listener>) returns (copy: array<Listener>)
    ensures fresh(copy)
    ensures copy[..] == arr[..]
  {
    var n := arr.Length;
    copy := new Listener[n];
    for i := 0 to n
      invariant copy[..i] == arr[..i]
    {
      copy[i] := arr[i];
    }
  }

  class SafeEventEmitter {
    /** `_events`, the listener table keyed by event type. */
    var events: Option<map<string, Handler>>
    /** Every listener call made so far, in order. */
    var invoked: seq<Invocation>

    constructor ()
      ensures events == Some(map[]) && invoked == []
    {
      events := Some(map[]);
      invoked := [];
    }

    /** An 'error' event with no 'error' listener throws. */
    predicate Raises(eventType: string)
      reads this
    {
      eventType == "error" && (events.None? || "error" !in events.value)
    }

    /** An event with a registered handler is dispatched. */
    predicate Handles(eventType: string)
      reads this
    {
      !Raises(eventType) && events.Some? && eventType in events.value
    }

    /** The listeners an `emit(eventType, ...)` would call now. */
    function ListenersFor(eventType: string): seq<Listener>
      reads this, if Handles(eventType) && events.value[eventType].Several?
                  then {events.value[eventType].listeners} else {}
    {
      if Handles(eventType) then Listeners(events.value[eventType]) else []
    }

    /** `safeApply`: a listener's exception is rethrown later, never here. */
    method SafeApply(l: Listener, args: seq<Value>)
      modifies this`invoked
      ensures invoked == old(invoked) + [Invocation(l, args)]
    {
      invoked := invoked + [Invocation(l, args)];
    }

    method Emit(eventType: string, args: seq<Value>) returns (outcome: EmitOutcome)
      modifies this`invoked
      ensures Raises(eventType) ==> outcome == Threw(UnhandledError(args)) && invoked == old(invoked)
      ensures !Raises(eventType) && !Handles(eventType) ==> outcome == Returned(false) && invoked == old(invoked)
      ensures Handles(eventType) ==>
        outcome == Returned(true) && invoked == old(invoked) + Calls(ListenersFor(eventType), args)
    {
      var doError := eventType == "error";
      if events.Some? {
        doError := doError && "error" !in events.value;
      } else if !doError {
        return Returned(false);
      }
      if doError {
        return Threw(UnhandledError(args));
      }
      var table := events.value;
      if eventType !in table {
        return Returned(false);
      }
      match table[eventType] {
        case Single(l) =>
          SafeApply(l, args);
          assert Calls([l], args) == [Invocation(l, args)];
        case Several(arr) =>
          var len := arr.Length;
          var listeners := ArrayClone(arr);
          for i := 0 to len
            invariant invoked == old(invoked) + Calls(listeners[..i], args)
            invariant listeners[..] == arr[..]
          {
            assert listeners[..i + 1] == listeners[..i] + [listeners[i]];
            assert Calls(listeners[..i + 1], args) == Calls(listeners[..i], args) + [Invocation(listeners[i], args)];
            SafeApply(listeners[i], args);
          }
          assert listeners[..len] == listeners[..];
      }
      return Returned(true);
    }
  }
}

=== FILE: errors.dfy ===
/**
 * Error normalisation: the NekotonRpcError class, its `serialize`, and
 * `serializeError`, which turns any thrown value into an object with `code`,
 * `message` and optional `data` (the shape of section 5.1 of the JSON-RPC 2.0
 * Specification). The code is an integer only on the NekotonRpcError and
 * fallback paths, and the message is non-empty when the fallback's is.
 */
module RpcErrors {
  import opened Wrappers
  import opened Js

  /** The RpcErrorCode enum; its members number from zero. */
  datatype RpcErrorCode = Internal | TryAgainLater | InvalidRequest | ResourceUnavailable | MethodNotFound
  {
    function Ordinal(): (n: int)
      ensures 0 <= n <= 4
      ensures this == InvalidRequest <==> n == 2
      ensures this == Internal <==> n == 0
    {
      match this
      case Internal => 0
      case TryAgainLater => 1
      case InvalidRequest => 2
      case ResourceUnavailable => 3
      case MethodNotFound => 4
    }
  }

  /**
   * The JsonRpcError interface as produced at run time: `code` is whatever
   * value was copied (only the NekotonRpcError and fallback paths guarantee an
   * integer), `data` and `stack` may be absent.
   */
  datatype JsonRpcError = JsonRpcError(code: Value, message: string, data: Option<Value>, stack: Option<Value>)

  /** The plain object a JsonRpcError is at run time: absent fields are absent keys. */
  function ToObject(e: JsonRpcError): (v: Value)
    ensures v.Obj? && v.kind == Plain
    ensures HasOwn(v, "code") && Get(v, "code") == e.code
    ensures Get(v, "message") == Str(e.message)
    ensures HasOwn(v, "data") <==> e.data.Some?
    ensures HasOwn(v, "stack") <==> e.stack.Some?
  {
    var base := map["code" := Field(e.code, true), "message" := Field(Str(e.message), true)];
    var withData := if e.data.Some? then base["data" := Field(e.data.value, true)] else base;
    var withStack := if e.stack.Some? then withData["stack" := Field(e.stack.value, true)] else withData;
    Obj(withStack, Plain)
  }

  const CodeNotInteger: string := "\"code\" must be an integer"
  const MessageNotString: string := "\"message\" must be a nonempty string"

  /**
   * The NekotonRpcError constructor: it throws unless `code` is an integer and
   * `message` a non-empty string. `stack` is the trace the Error constructor
   * records, which the runtime supplies; `rendered` is what the instance's
   * `toString` returns.
   */
  function NewRpcError(code: Value, message: Value, data: Value, stack: string, rendered: string): (r: Result<RpcErrorObject, string>)
    ensures r.Success? <==> IsInteger(code) && message.Str? && message.s != ""
    ensures !IsInteger(code) ==> r == Failure(CodeNotInteger)
    ensures IsInteger(code) && !(message.Str? && message.s != "") ==> r == Failure(MessageNotString)
    ensures r.Success? ==> Num(r.value.code) == code && Str(r.value.message) == message && r.value.data == data
  {
    if !IsInteger(code) then Failure(CodeNotInteger)
    else if !Truthy(message) || TypeOf(message) != "string" then Failure(MessageNotString)
    else Success(RpcErrorObject(code.n, message.s, data, stack, rendered))
  }

  /** `NekotonRpcError.serialize`. */
  function Serialize(e: RpcErrorObject): (r: JsonRpcError)
    ensures r.code == Num(e.code) && r.message == e.message
    ensures r.data.Some? <==> e.data != Undefined
    ensures r.data.Some? ==> r.data.value == e.data
    ensures r.stack.Some? <==> e.stack != ""
  {
    JsonRpcError(
      Num(e.code),
      e.message,
      if e.data != Undefined then Some(e.data) else None,
      if Truthy(Str(e.stack)) then Some(Str(e.stack)) else None)
  }

  /** The FALLBACK_ERROR constant. */
  const FallbackError: Value :=
    Obj(map["code" := Field(Num(Int(RpcErrorCode.Internal.Ordinal())), true),
            "message" := Field(Str("Unspecified error message"), true)], Plain)

  const BadFallback: string := "Must provide fallback error with integer number code and string message"
  const MessageFromCode: string := "TODO: get message from code"

  /** The destructuring default: only an undefined `fallbackError` is replaced. */
  function EffectiveFallback(fallback: Value): Value
  {
    if fallback.Undefined? then FallbackError else fallback
  }

  predicate ValidFallback(fb: Value)
  {
    Truthy(fb) && IsInteger(Get(fb, "code")) && Get(fb, "message").Str?
  }

  /** Objects whose own enumerable properties `assignOriginalError` copies. */
  predicate IsCopyableObject(v: Value)
  {
    Truthy(v) && TypeOf(v) == "object" && !v.Arr?
  }

  /** `assignOriginalError`: a shallow copy of a non-array object, anything else as is. */
  function AssignOriginalError(v: Value): (r: Value)
    ensures IsCopyableObject(v) ==> r.Obj? && r.kind == Plain && OwnEnumerable(r) == OwnEnumerable(v)
    ensures IsCopyableObject(v) ==> forall k :: k in r.props ==> r.props[k].enumerable
    ensures !IsCopyableObject(v) ==> r == v
  {
    if IsCopyableObject(v) then
      var own := OwnEnumerable(v);
      Obj(map k | k in own :: Field(own[k], true), Plain)
    else v
  }

  /** The `data` that carries the thrown value along: `{ originalError: ... }`. */
  function OriginalErrorData(v: Value): Value
  {
    Obj(map["originalError" := Field(AssignOriginalError(v), true)], Plain)
  }

  /** Whether `error` takes the "has a code" branch of `serializeError`. */
  predicate HasCodeShape(error: Value)
  {
    Truthy(error) && TypeOf(error) == "object" && !error.Arr? && HasOwn(error, "code")
  }

  /** A message `serializeError` keeps: a non-empty string. */
  predicate UsableMessage(m: Value)
  {
    Truthy(m) && m.Str?
  }

  /**
   * `serializeError`. The stack is never copied: the source tests
   * `typeof stack === 'stack'`, which no value satisfies.
   */
  function SerializeError(error: Value, fallback: Value, shouldIncludeStack: bool): (r: Result<JsonRpcError, string>)
    ensures r.Failure? <==> !ValidFallback(EffectiveFallback(fallback))
    ensures r.Failure? ==> r.error == BadFallback
    ensures r.Success? && error.RpcErr? ==> r.value == Serialize(error.err)
    ensures r.Success? && !error.RpcErr? ==> r.value.stack.None?
    ensures r.Success? && !error.RpcErr? && HasCodeShape(error) ==> r.value.code == Get(error, "code")
    ensures r.Success? && !error.RpcErr? && !HasCodeShape(error) ==>
      r.value.code == Get(EffectiveFallback(fallback), "code") && IsInteger(r.value.code)
    ensures r.Success? && !error.RpcErr? && Get(EffectiveFallback(fallback), "message") != Str("") ==> r.value.message != ""
    ensures r.Success? && !error.RpcErr? && r.value.data != Some(OriginalErrorData(error)) ==>
      HasCodeShape(error) && UsableMessage(Get(error, "message"))
    ensures r.Success? && !error.RpcErr? && HasCodeShape(error) && !UsableMessage(Get(error, "message")) ==>
      r.value.message == MessageFromCode && r.value.data == Some(OriginalErrorData(error))
    ensures r.Success? && !error.RpcErr? && !HasCodeShape(error) ==>
      var m := if IsNullish(error) then Undefined else Get(error, "message");
      && r.value.message == (if UsableMessage(m) then m.s else Get(EffectiveFallback(fallback), "message").s)
      && r.value.data == Some(OriginalErrorData(error))
  {
    var fb := EffectiveFallback(fallback);
    if !Truthy(fb) || !IsInteger(Get(fb, "code")) || TypeOf(Get(fb, "message")) != "string" then
      Failure(BadFallback)
    else if error.RpcErr? then
      Success(Serialize(error.err))
    else
      var serialized :=
        if HasCodeShape(error) then
          var message := Get(error, "message");
          if UsableMessage(message) then
            JsonRpcError(Get(error, "code"), message.s,
                         if HasOwn(error, "data") then Some(Get(error, "data")) else None, None)
          else
            JsonRpcError(Get(error, "code"), MessageFromCode, Some(OriginalErrorData(error)), None)
        else
          var message := if IsNullish(error) then Undefined else Get(error, "message");
          JsonRpcError(Get(fb, "code"),
                       if UsableMessage(message) then message.s else Get(fb, "message").s,
                       Some(OriginalErrorData(error)), None);
      var stack := if IsNullish(error) then Undefined else Get(error, "stack");
      if shouldIncludeStack && Truthy(error) && Truthy(stack) && TypeOf(stack) == "stack" then
        Success(serialized.(stack := Some(stack)))
      else
        Success(serialized)
  }

  /**
   * An error object that already conforms (own `code`, non-empty string
   * `message`) keeps its code and message, and keeps `data` exactly when it
   * has its own `data` key, whatever that key holds.
   */
  lemma ConformingErrorKept(error: Value, fallback: Value, shouldIncludeStack: bool)
    requires !error.RpcErr? && HasCodeShape(error) && UsableMessage(Get(error, "message"))
    requires ValidFallback(EffectiveFallback(fallback))
    ensures SerializeError(error, fallback, shouldIncludeStack) ==
      Success(JsonRpcError(Get(error, "code"), Get(error, "message").s,
                           if HasOwn(error, "data") then Some(Get(error, "data")) else None, None))
  {
  }

  /**
   * Serialising an error shape that is already normalised gives it back:
   * `code`, `message` and `data` survive, a `stack` is dropped.
   */
  lemma NormalisedShapeRoundTrip(e: JsonRpcError, shouldIncludeStack: bool)
    requires e.message != ""
    ensures SerializeError(ToObject(e), Undefined, shouldIncludeStack) == Success(e.(stack := None))
  {
    var v := ToObject(e);
    assert HasCodeShape(v);
    assert UsableMessage(Get(v, "message"));
    assert e.data.Some? ==> Get(v, "data") == e.data.value;
  }

  /**
   * A NekotonRpcError sent across a boundary as its serialized object is
   * classified back to the same `code`, `message` and `data`.
   */
  lemma RpcErrorRoundTrip(code: Value, message: Value, data: Value, stack: string, rendered: string, shouldIncludeStack: bool)
    requires NewRpcError(code, message, data, stack, rendered).Success?
    ensures var s := Serialize(NewRpcError(code, message, data, stack, rendered).value);
      SerializeError(ToObject(s), Undefined, shouldIncludeStack) == Success(s.(stack := None))
  {
    NormalisedShapeRoundTrip(Serialize(NewRpcError(code, message, data, stack, rendered).value), shouldIncludeStack);
  }

  /**
   * `shouldIncludeStack` changes nothing for any value: other values never
   * get a stack, and a NekotonRpcError's `serialize()` does not read the flag.
   */
  lemma StackNeverCopied(error: Value, fallback: Value)
    ensures SerializeError(error, fallback, true) == SerializeError(error, fallback, false)
  {
  }
}

=== FILE: exchange.dfy ===
/**
 * Whole round trips through the id-remap middleware and the correlation
 * engine, with the remote side answering under the id it was sent.
 */
module Exchange {
  import opened Js
  import opened Rpc
  import opened StreamMiddleware
  import opened Middleware
  import opened Emitter

  /** The remote side's answer: `{ jsonrpc: '2.0', id, result }`. */
  function Answer(id: Value, result: Value): (msg: Value)
    ensures msg.Obj? && Get(msg, "id") == id && Get(msg, "result") == result
    ensures OwnEnumerable(msg) == map["jsonrpc" := Str("2.0"), "id" := id, "result" := result]
  {
    Obj(map["jsonrpc" := Field(Str("2.0"), true), "id" := Field(id, true), "result" := Field(result, true)], Plain)
  }

  /**
   * A call remapped, filed, answered and restored: the table is back as it
   * was, `end` is scheduled once, the request carries the caller's id again
   * and the response carries the caller's id and the result.
   */
  method RemappedExchange(counter: IdCounter, engine: StreamMiddleware, req: RpcObject, res: RpcObject,
                          next: Continuation, end: Continuation, result: Value)
    requires counter.Valid() && counter.idCounter != MAX - 1
    requires KeyOf(Num(Int(NextId(counter.idCounter)))) !in engine.idMap
    modifies counter, req, res, engine, engine.events, engine.Responses()
    ensures engine.idMap == old(engine.idMap)
    ensures engine.outbound == old(engine.outbound) + [req]
    ensures engine.scheduled == old(engine.scheduled) + [end]
    ensures req != res ==> req.fields == old(req.fields)["id" := old(req.Prop("id"))]
    ensures res.Prop("id") == old(req.Prop("id")) && res.Prop("result") == result
  {
    var handler, newId := IdRemapForward(counter, req, res);
    assert newId != 0;
    var filed := engine.Middleware(req, res, next, end);
    var key := KeyOf(Num(Int(newId)));
    var p := Pending(req, res, next, end);
    var msg := Answer(Num(Int(newId)), result);
    RegisterThenRespond(old(engine.idMap), key, p, msg);
    var err := engine.ProcessMessage(msg);
    IdRemapReturn(handler, req, res);
  }

  /**
   * When the counter wraps, the fresh id is 0, the answer is taken for a
   * notification and the call stays pending for good.
   */
  method WrappedIdStaysPending(counter: IdCounter, engine: StreamMiddleware, req: RpcObject, res: RpcObject,
                               next: Continuation, end: Continuation, result: Value)
    requires counter.Valid() && counter.idCounter == MAX - 1
    modifies counter, req, res, engine, engine.events, engine.Responses()
    ensures counter.idCounter == 0
    ensures engine.idMap == old(engine.idMap)[KeyOf(Num(Int(0))) := Pending(req, res, next, end)]
    ensures engine.events.invoked ==
      old(engine.events.invoked) + Calls(engine.events.ListenersFor("notification"), [Answer(Num(Int(0)), result)])
    ensures engine.scheduled == old(engine.scheduled)
  {
    CounterWrapsToZero();
    var handler, newId := IdRemapForward(counter, req, res);
    var filed := engine.Middleware(req, res, next, end);
    var msg := Answer(Num(Int(newId)), result);
    FalsyIdIsNotification(engine.idMap, msg);
    var err := engine.ProcessMessage(msg);
  }

  /**
   * Two calls in flight answered in the reverse order: each response object
   * gets its own result and each call completes, regardless of arrival order.
   */
  method AnsweredInReverseOrder(engine: StreamMiddleware,
                                req1: RpcObject, res1: RpcObject, end1: Continuation,
                                req2: RpcObject, res2: RpcObject, end2: Continuation,
                                next: Continuation, result1: Value, result2: Value)
    requires res1 != res2
    requires Truthy(req1.Prop("id")) && Truthy(req2.Prop("id"))
    requires StringConvertible(req1.Prop("id")) && StringConvertible(req2.Prop("id"))
    requires KeyOf(req1.Prop("id")) != KeyOf(req2.Prop("id"))
    requires KeyOf(req1.Prop("id")) !in engine.idMap && KeyOf(req2.Prop("id")) !in engine.idMap
    modifies engine, engine.events, engine.Responses(), res1, res2
    ensures engine.idMap == old(engine.idMap)
    ensures engine.scheduled == old(engine.scheduled) + [end2, end1]
    ensures res1.Prop("result") == result1 && res2.Prop("result") == result2
  {
    var id1, id2 := req1.Prop("id"), req2.Prop("id");
    var k1, k2 := KeyOf(id1), KeyOf(id2);
    var p1, p2 := Pending(req1, res1, next, end1), Pending(req2, res2, next, end2);
    var m1, m2 := Answer(id1, result1), Answer(id2, result2);
    var t := engine.idMap;
    var filed1 := engine.Middleware(req1, res1, next, end1);
    var filed2 := engine.Middleware(req2, res2, next, end2);
    RegisterThenRespond(t[k1 := p1], k2, p2, m2);
    RegisterThenRespond(t, k1, p1, m1);
    var err2 := engine.ProcessMessage(m2);
    assert res2.Prop("result") == result2;
    var err1 := engine.ProcessMessage(m1);
  }
}

=== FILE: js.dfy ===
/**
 * The JavaScript values the RPC plumbing handles: messages read off a stream,
 * thrown values, ids and error data. Only the parts of the language the core
 * looks at are modelled: truthiness, `typeof`, own and inherited property
 * reads, `Number.isInteger`, and conversion to a string (used for property
 * keys and template literals).
 */
module Js {
  import opened Wrappers

  /** 10^21: from this magnitude on, JavaScript spells integers with an exponent. */
  const IntSpellingLimit: int := 1_000_000_000_000_000_000_000

  type SmallInt = i: int | -IntSpellingLimit < i < IntSpellingLimit

  /**
   * A JavaScript number. `Int` is an integral value below 10^21 in magnitude
   * (minus zero is `Int(0)`); every other number except NaN is `Spelled` by
   * the text `Number.prototype.toString` gives it, with a flag saying whether
   * it is integral (so `Infinity` is `Spelled("Infinity", false)`).
   */
  datatype Number =
    | Int(i: SmallInt)
    | Spelled(repr: string, integral: bool)
    | NaN

  /** Plain objects inherit from Object.prototype, error objects from Error.prototype. */
  datatype ObjKind = Plain | ErrorLike

  /** An own data property; `Object.assign` copies only the enumerable ones. */
  datatype Field = Field(value: Value, enumerable: bool)

  /**
   * An instance of NekotonRpcError: an Error with an integral `code` and
   * optional `data`. `stack` is the trace the runtime records; `rendered` is
   * the text its `toString` override returns, the `fast-safe-stringify`
   * rendering of `serialize()`, which this model takes as given rather than
   * computing.
   */
  datatype RpcErrorObject = RpcErrorObject(code: Number, message: string, data: Value, stack: string, rendered: string)

  datatype Value =
    | Undefined
    | Null
    | Bool(b: bool)
    | Num(n: Number)
    | Str(s: string)
    | Arr(elems: seq<Value>)
    | Obj(props: map<string, Field>, kind: ObjKind)
    | RpcErr(err: RpcErrorObject)

  /** JavaScript's ToBoolean. */
  predicate Truthy(v: Value)
  {
    match v
    case Undefined => false
    case Null => false
    case Bool(b) => b
    case Num(n) => !(n.Int? && n.i == 0) && !n.NaN?
    case Str(s) => s != ""
    case _ => true
  }

  /** `Number.isInteger(v)`. */
  predicate IsInteger(v: Value)
  {
    v.Num? && (v.n.Int? || (v.n.Spelled? && v.n.integral))
  }

  /** The `typeof` operator (functions and symbols are not values of this model). */
  function TypeOf(v: Value): (t: string)
    ensures t in {"undefined", "object", "boolean", "number", "string"}
    ensures t == "object" <==> v.Null? || v.Arr? || v.Obj? || v.RpcErr?
  {
    match v
    case Undefined => "undefined"
    case Bool(_) => "boolean"
    case Num(_) => "number"
    case Str(_) => "string"
    case _ => "object"
  }

  /** True for values a property read throws on (`undefined.x`, `null.x`). */
  predicate IsNullish(v: Value)
  {
    v.Undefined? || v.Null?
  }

  /** Whether `key` is an own property of `v` (`Object.prototype.hasOwnProperty`). */
  predicate HasOwn(v: Value, key: string)
  {
    match v
    case Obj(props, _) => key in props
    case RpcErr(_) => key in {"code", "message", "data", "stack"}
    case _ => false
  }

  /**
   * The property read `v[key]` for the property names the core reads (`id`,
   * `method`, `result`, `error`, `code`, `message`, `data`, `stack`, `name`).
   * Own properties first, then what Error.prototype supplies; primitives and
   * arrays have none of these names. A read on a nullish value throws in
   * JavaScript; callers check `IsNullish` first.
   */
  function Get(v: Value, key: string): Value
  {
    match v
    case Obj(props, kind) =>
      if key in props then props[key].value
      else if kind == ErrorLike && key == "message" then Str("")
      else if kind == ErrorLike && key == "name" then Str("Error")
      else Undefined
    case RpcErr(e) =>
      if key == "code" then Num(e.code)
      else if key == "message" then Str(e.message)
      else if key == "data" then e.data
      else if key == "stack" then Str(e.stack)
      else if key == "name" then Str("Error")
      else Undefined
    case _ => Undefined
  }

  /** The enumerable own properties of `v`, which `Object.assign` copies. */
  function OwnEnumerable(v: Value): (m: map<string, Value>)
    ensures forall k :: k in m <==> HasOwn(v, k) && (v.Obj? ==> v.props[k].enumerable) && (v.RpcErr? ==> k in {"code", "data"})
    ensures forall k :: k in m ==> m[k] == Get(v, k)
  {
    match v
    case Obj(props, _) => map k | k in props && props[k].enumerable :: props[k].value
    case RpcErr(e) => map["code" := Num(e.code), "data" := e.data]
    case _ => map[]
  }

  function DigitChar(d: int): (c: char)
    requires 0 <= d < 10
    ensures '0' <= c <= '9'
    ensures c as int - '0' as int == d
  {
    "0123456789"[d]
  }

  /** The decimal spelling of a natural number, without leading zeros. */
  function Decimal(n: nat): (r: string)
    ensures |r| >= 1
    ensures forall k :: 0 <= k < |r| ==> '0' <= r[k] <= '9'
    ensures (r[0] == '0') <==> n == 0
    ensures n < 10 <==> |r| == 1
  {
    if n < 10 then [DigitChar(n)] else Decimal(n / 10) + [DigitChar(n % 10)]
  }

  /** The spelling JavaScript gives an integral number below 10^21 in magnitude. */
  function IntString(i: int): (r: string)
    ensures |r| >= 1
    ensures (r[0] == '-') <==> i < 0
  {
    if i < 0 then "-" + Decimal(-i) else Decimal(i)
  }

  /** `Array.prototype.join` with the default separator. */
  function JoinWithCommas(parts: seq<string>): string
  {
    if |parts| == 0 then ""
    else if |parts| == 1 then parts[0]
    else JoinWithCommas(parts[..|parts| - 1]) + "," + parts[|parts| - 1]
  }

  /**
   * Whether JavaScript's ToString of `v` returns rather than throws. No value
   * of the model is a function, so an own `toString` key always shadows the
   * inherited method with something not callable; `valueOf` then gives the
   * object itself and the conversion throws a TypeError. Arrays convert their
   * elements and errors their `name` and `message`, so the same holds inside
   * them.
   */
  predicate StringConvertible(v: Value)
  {
    match v
    case Arr(xs) => forall k :: 0 <= k < |xs| ==> StringConvertible(xs[k])
    case Obj(props, kind) =>
      && "toString" !in props
      && (kind == ErrorLike ==>
            && ("name" in props ==> StringConvertible(props["name"].value))
            && ("message" in props ==> StringConvertible(props["message"].value)))
    case _ => true
  }

  /** The TypeError a string conversion throws when `StringConvertible` fails. */
  const ConversionTypeError: Value :=
    Obj(map["name" := Field(Str("TypeError"), false),
            "message" := Field(Str("Cannot convert object to primitive value"), false)], ErrorLike)

  /**
   * JavaScript's ToString, as used by property-key coercion (`obj[id]`) and by
   * template literals, on a value whose conversion does not throw. Arrays join their elements (nullish ones as ""),
   * plain objects give "[object Object]", errors follow
   * `Error.prototype.toString` and a NekotonRpcError gives the text of its
   * own `toString`.
   */
  function ToJsString(v: Value): string
    requires StringConvertible(v)
  {
    match v
    case Undefined => "undefined"
    case Null => "null"
    case Bool(b) => if b then "true" else "false"
    case Num(n) =>
      (match n
       case Int(i) => IntString(i)
       case Spelled(r, _) => r
       case NaN => "NaN")
    case Str(s) => s
    case Arr(xs) =>
      JoinWithCommas(seq(|xs|, k requires 0 <= k < |xs| => if IsNullish(xs[k]) then "" else ToJsString(xs[k])))
    case Obj(props, kind) =>
      if kind == Plain then "[object Object]"
      else
        var name := if "name" in props && !props["name"].value.Undefined? then ToJsString(props["name"].value) else "Error";
        var msg := if "message" in props && !props["message"].value.Undefined? then ToJsString(props["message"].value) else "";
        ErrorText(name, msg)
    case RpcErr(e) => e.rendered
  }

  /** How `Error.prototype.toString` joins a name and a message. */
  function ErrorText(name: string, msg: string): string
  {
    if name == "" then msg else if msg == "" then name else name + ": " + msg
  }

  lemma {:induction false} DecimalInjective(a: nat, b: nat)
    requires Decimal(a) == Decimal(b)
    ensures a == b
  {
    if a >= 10 && b >= 10 {
      var da, db := Decimal(a), Decimal(b);
      assert da[..|da| - 1] == Decimal(a / 10);
      assert db[..|db| - 1] == Decimal(b / 10);
      DecimalInjective(a / 10, b / 10);
      assert da[|da| - 1] == DigitChar(a % 10);
      assert db[|db| - 1] == DigitChar(b % 10);
    }
  }

  /** Distinct integral numbers give distinct property keys. */
  lemma IntStringInjective(a: int, b: int)
    requires IntString(a) == IntString(b)
    ensures a == b
  {
    if a < 0 {
      assert IntString(a)[1..] == Decimal(-a);
      assert IntString(b)[1..] == Decimal(-b);
      DecimalInjective(-a, -b);
    } else {
      DecimalInjective(a, b);
    }
  }
}

=== FILE: middleware.dfy ===
/**
 * The process-wide id counter (`getUniqueId`) and the two middlewares that
 * sit in front of the correlation engine: id remapping and request checking.
 */
module Middleware {
  import opened Wrappers
  import opened Js
  import opened Rpc
  import opened RpcErrors

  /** The modulus of the id counter: 2^32 - 1. */
  const MAX: int := 4294967295

  /** The id that follows `counter`. */
  function NextId(counter: int): int
  {
    (counter + 1) % MAX
  }

  /** The counter after `k` calls of `getUniqueId`, starting from `counter`. */
  function IdAfter(counter: int, k: nat): int
  {
    if k == 0 then counter else NextId(IdAfter(counter, k - 1))
  }

  /** `k` calls advance the counter by `k`, modulo MAX. */
  lemma {:induction false} IdAfterIsOffset(counter: int, k: nat)
    requires 0 <= counter < MAX
    ensures IdAfter(counter, k) == (counter + k) % MAX
  {
    if k > 0 {
      IdAfterIsOffset(counter, k - 1);
      var q := (counter + k - 1) / MAX;
      assert counter + k - 1 == q * MAX + IdAfter(counter, k - 1);
    }
  }

  /**
   * Up to MAX consecutive calls hand out pairwise distinct ids, so an id is
   * reused only after MAX further requests.
   */
  lemma IdsDistinctWithinCycle(counter: int, i: nat, j: nat)
    requires 0 <= counter < MAX
    requires 1 <= i < j <= MAX
    ensures IdAfter(counter, i) != IdAfter(counter, j)
  {
    IdAfterIsOffset(counter, i);
    IdAfterIsOffset(counter, j);
  }

  /** The counter wraps to 0, a falsy id. */
  lemma CounterWrapsToZero()
    ensures NextId(MAX - 1) == 0
  {
  }

  /** The module-level `idCounter` and `getUniqueId`. */
  class IdCounter {
    var idCounter: int

    predicate Valid()
      reads this
    {
      0 <= idCounter < MAX
    }

    /** `seed` stands for `Math.floor(Math.random() * MAX)`. */
    constructor (seed: int)
      requires 0 <= seed < MAX
      ensures Valid() && idCounter == seed
    {
      idCounter := seed;
    }

    method GetUniqueId() returns (id: int)
      requires Valid()
      modifies this
      ensures Valid() && 0 <= id < MAX
      ensures id == NextId(old(idCounter)) && idCounter == id
    {
      idCounter := (idCounter + 1) % MAX;
      return idCounter;
    }
  }

  /** The return handler `createIdRemapMiddleware` passes to `next`. */
  datatype RemapReturn = RestoreId(originalId: Value)

  /** The id-remap middleware on the way out: both objects carry a fresh id. */
  method IdRemapForward(counter: IdCounter, req: RpcObject, res: RpcObject) returns (handler: RemapReturn, newId: int)
    requires counter.Valid()
    modifies counter, req, res
    ensures counter.Valid() && newId == counter.idCounter && newId == NextId(old(counter.idCounter))
    ensures handler == RestoreId(old(req.Prop("id")))
    ensures req.fields == old(req.fields)["id" := Num(Int(newId))]
    ensures res.fields == old(res.fields)["id" := Num(Int(newId))]
  {
    var originalId := req.Prop("id");
    newId := counter.GetUniqueId();
    req.fields := req.fields["id" := Num(Int(newId))];
    res.fields := res.fields["id" := Num(Int(newId))];
    handler := RestoreId(originalId);
  }

  /** The id-remap return handler: both objects get the caller's id back. */
  method IdRemapReturn(handler: RemapReturn, req: RpcObject, res: RpcObject)
    modifies req, res
    ensures req.fields == old(req.fields)["id" := handler.originalId]
    ensures res.fields == old(res.fields)["id" := handler.originalId]
  {
    req.fields := req.fields["id" := handler.originalId];
    res.fields := res.fields["id" := handler.originalId];
  }

  /**
   * Remapping and restoring gives the caller its object back, with only
   * `id` touched: whatever the downstream middleware wrote (`updates`,
   * which may itself set `id`), the caller's id wins; the object equals the
   * original when the caller set an id and nothing else changed, and has an
   * explicit `id: undefined` when the caller set none.
   */
  lemma RemapRestoresFields(fields: map<string, Value>, newId: Value, updates: map<string, Value>)
    ensures var original := if "id" in fields then fields["id"] else Undefined;
      var restored := (fields["id" := newId] + updates)["id" := original];
      && restored == (fields + updates)["id" := original]
      && ("id" in fields && updates == map[] ==> restored == fields)
      && ("id" !in fields ==> restored == (fields + updates)["id" := Undefined])
  {
    var original := if "id" in fields then fields["id"] else Undefined;
    assert (fields["id" := newId] + updates)["id" := original] == (fields + updates)["id" := original];
    if "id" in fields && updates == map[] {
      assert fields + updates == fields;
    }
  }

  const InvalidRequestMessage: string := "The request 'method' must be a non-empty string."

  /**
   * The error `createErrorMiddleware` attaches: its construction never
   * throws, and it carries INVALID_REQUEST and no data.
   */
  function InvalidRequestError(stack: string, rendered: string): (e: RpcErrorObject)
    ensures NewRpcError(Num(Int(RpcErrorCode.InvalidRequest.Ordinal())), Str(InvalidRequestMessage), Undefined, stack, rendered) == Success(e)
    ensures e.code == Int(2) && e.message == InvalidRequestMessage && e.data == Undefined
  {
    RpcErrorObject(Int(RpcErrorCode.InvalidRequest.Ordinal()), InvalidRequestMessage, Undefined, stack, rendered)
  }

  /**
   * The error middleware on the way out: a request without a truthy
   * `method` gets an INVALID_REQUEST error on its response.
   */
  method ErrorMiddleware(req: RpcObject, res: RpcObject, stack: string, rendered: string)
    modifies res
    ensures !Truthy(old(req.Prop("method"))) ==> res.fields == old(res.fields)["error" := RpcErr(InvalidRequestError(stack, rendered))]
    ensures Truthy(old(req.Prop("method"))) ==> res.fields == old(res.fields)
  {
    if !Truthy(req.Prop("method")) {
      res.fields := res.fields["error" := RpcErr(InvalidRequestError(stack, rendered))];
    }
  }

  /**
   * The error middleware's return handler: the line it logs, if any, or
   * whether building that line threw because the message has no string form.
   */
  method ErrorReturnHandler(res: RpcObject) returns (logged: Option<string>, threw: bool)
    ensures threw <==> Truthy(res.Prop("error")) && !StringConvertible(Get(res.Prop("error"), "message"))
    ensures logged.Some? <==> Truthy(res.Prop("error")) && !threw
    ensures logged.Some? ==> logged.value == "Nekoton: RPC Error: " + ToJsString(Get(res.Prop("error"), "message"))
  {
    var error := res.Prop("error");
    if !Truthy(error) {
      return None, false;
    }
    var message := Get(error, "message");
    if !StringConvertible(message) {
      return None, true;
    }
    return Some("Nekoton: RPC Error: " + ToJsString(message)), false;
  }
}

=== FILE: port.dfy ===
/**
 * PortDuplexStream: a browser runtime port seen as an object stream. The
 * payload is a tagged union (binary or structured) instead of a run-time
 * `Buffer.isBuffer` test; the port's connection state is a field.
 */
module PortStream {
  import opened Wrappers
  import opened Js

  type Byte = b: int | 0 <= b < 256

  datatype Payload = Binary(bytes: seq<Byte>) | Structured(value: Value)

  const Disconnected: string := "PortDuplexStream - disconnected"

  function ByteValues(bytes: seq<Byte>): (xs: seq<Value>)
    ensures |xs| == |bytes|
    ensures forall i :: 0 <= i < |xs| ==> xs[i] == Num(Int(bytes[i]))
  {
    seq(|bytes|, i requires 0 <= i < |bytes| => Num(Int(bytes[i])))
  }

  predicate IsByteValue(v: Value)
  {
    v.Num? && v.n.Int? && 0 <= v.n.i < 256
  }

  /** An object marked `_isBuffer` whose `data` is an array of bytes. */
  predicate IsTaggedBuffer(w: Value)
  {
    && w.Obj?
    && Truthy(Get(w, "_isBuffer"))
    && Get(w, "data").Arr?
    && forall i :: 0 <= i < |Get(w, "data").elems| ==> IsByteValue(Get(w, "data").elems[i])
  }

  /**
   * What `_write` hands to `postMessage`: a buffer becomes its `toJSON()`
   * form, `{ type: 'Buffer', data: [...] }`, with `_isBuffer: true` added;
   * anything else goes as it is.
   */
  function WireForm(p: Payload): (w: Value)
    ensures p.Structured? ==> w == p.value
    ensures p.Binary? ==> IsTaggedBuffer(w) && Get(w, "type") == Str("Buffer")
    ensures p.Binary? ==>
      && w.Obj? && w.props.Keys == {"type", "data", "_isBuffer"}
      && Get(w, "_isBuffer") == Bool(true)
      && Get(w, "data") == Arr(ByteValues(p.bytes))
  {
    match p
    case Structured(v) => v
    case Binary(bytes) =>
      Obj(map["type" := Field(Str("Buffer"), true),
              "data" := Field(Arr(ByteValues(bytes)), true),
              "_isBuffer" := Field(Bool(true), true)], Plain)
  }

  /**
   * A decoder for the wire form, witnessing that it loses nothing: a tagged
   * buffer object is rebuilt into bytes, any other message is taken as it
   * is. It is not the receiving side's own code, which leaves the rebuilding
   * to `Buffer.from`.
   */
  function FromWire(w: Value): Payload
  {
    if IsTaggedBuffer(w) then
      var xs := Get(w, "data").elems;
      Binary(seq(|xs|, i requires 0 <= i < |xs| => xs[i].n.i as Byte))
    else Structured(w)
  }

  /**
   * `FromWire` is a left inverse of `WireForm`: the wire form loses no byte
   * of a buffer, and no structured message that is not itself shaped like a
   * tagged buffer.
   */
  lemma WireFormRoundTrip(p: Payload)
    requires p.Structured? ==> !IsTaggedBuffer(p.value)
    ensures FromWire(WireForm(p)) == p
  {
    if p.Binary? {
      var w := WireForm(p);
      var xs := Get(w, "data").elems;
      assert xs == ByteValues(p.bytes);
      assert seq(|xs|, i requires 0 <= i < |xs| => xs[i].n.i as Byte) == p.bytes;
    }
  }

  class PortDuplexStream {
    /** Whether the port still accepts `postMessage`. */
    var connected: bool
    /** Messages handed to `postMessage`, in order. */
    var posted: seq<Value>
    /** Payloads pushed onto the readable side, in order. */
    var pushed: seq<Payload>
    /** Set by `destroy()` when the port disconnects. */
    var destroyed: bool

    constructor (connected: bool)
      ensures this.connected == connected && posted == [] && pushed == [] && !destroyed
    {
      this.connected := connected;
      posted := [];
      pushed := [];
      destroyed := false;
    }

    /**
     * `_write`: post the wire form; a port that throws because it is gone
     * becomes a "disconnected" error for the callback.
     */
    method Write(message: Payload) returns (err: Option<string>)
      modifies this`posted
      ensures connected ==> err == None && posted == old(posted) + [WireForm(message)]
      ensures !connected ==> err == Some(Disconnected) && posted == old(posted)
    {
      if !connected {
        return Some(Disconnected);
      }
      posted := posted + [WireForm(message)];
      return None;
    }

    /** `_onMessage`: a buffer is pushed as a copy, anything else as it is. */
    method OnMessage(msg: Payload)
      modifies this`pushed
      ensures pushed == old(pushed) + [msg]
    {
      match msg {
        case Binary(bytes) =>
          pushed := pushed + [Binary(bytes[..])];
        case Structured(_) =>
          pushed := pushed + [msg];
      }
    }

    /** `_onDisconnect`: the port is gone and the stream is destroyed. */
    method OnDisconnect()
      modifies this`connected, this`destroyed
      ensures !connected && destroyed
    {
      connected := false;
      destroyed := true;
    }
  }
}

=== FILE: rpc.dfy ===
/**
 * JSON-RPC request and response objects as the middleware engine shares them
 * (by reference, updated in place), and `getRpcPromiseCallback`.
 */
module Rpc {
  import opened Js

  /**
   * A request or (pending) response object. Middlewares hold references to
   * the same object and assign its fields in place.
   */
  class RpcObject {
    var fields: map<string, Value>

    constructor (fields: map<string, Value>)
      ensures this.fields == fields
    {
      this.fields := fields;
    }

    /** `obj[key]`: an absent field reads as undefined. */
    function Prop(key: string): Value
      reads this
    {
      if key in fields then fields[key] else Undefined
    }
  }

  /** What the callback from `getRpcPromiseCallback` does with a response. */
  datatype Settlement =
    | Resolved(value: Value)
    | Rejected(reason: Value)
    | Raised  // `response.error` read on an undefined or null response throws a TypeError

  /**
   * The callback `getRpcPromiseCallback(resolve, reject, unwrapResult)`
   * returns, applied to `(error, response)`.
   */
  function RpcPromiseCallback(unwrapResult: bool, error: Value, response: Value): (s: Settlement)
    ensures s.Raised? <==> !Truthy(error) && IsNullish(response)
    ensures s.Rejected? <==> Truthy(error) || (!IsNullish(response) && Truthy(Get(response, "error")))
    ensures s.Rejected? ==> Truthy(s.reason)
    ensures s.Rejected? && Truthy(error) ==> s.reason == error
    ensures s.Rejected? && !Truthy(error) ==> s.reason == Get(response, "error")
    ensures s.Resolved? && (!unwrapResult || response.Arr?) ==> s.value == response
    ensures s.Resolved? && unwrapResult && !response.Arr? ==> s.value == Get(response, "result")
  {
    if Truthy(error) then Rejected(error)
    else if IsNullish(response) then Raised
    else if Truthy(Get(response, "error")) then Rejected(Get(response, "error"))
    else if !unwrapResult || response.Arr? then Resolved(response)
    else Resolved(Get(response, "result"))
  }
}

=== FILE: stream.dfy ===
/**
 * `createStreamMiddleware`: the request/response correlation engine. The
 * middleware pushes each request onto the stream and files it in `idMap`
 * under its id; every message written back is either a notification
 * (emitted as 'notification') or a response, which is matched to its entry,
 * merged into the waiting response object and completed later.
 */
module StreamMiddleware {
  import opened Wrappers
  import opened Js
  import opened Emitter
  import opened Rpc

  /** The identity of an engine callback (`next` or `end`). */
  type Continuation = nat

  /** An `idMap` entry: `{ req, res, next, end }`. */
  datatype Pending = Pending(req: RpcObject, res: RpcObject, next: Continuation, end: Continuation)

  /**
   * The names every plain object inherits from Object.prototype. Reading one
   * of them on `idMap` finds a function or the prototype, not an entry.
   */
  const InheritedNames: set<string> := {
    "constructor", "__proto__", "__defineGetter__", "__defineSetter__",
    "__lookupGetter__", "__lookupSetter__", "hasOwnProperty", "isPrototypeOf",
    "propertyIsEnumerable", "toLocaleString", "toString", "valueOf"}

  /** `idMap[id]` coerces the id to a string key. */
  function KeyOf(id: Value): string
    requires StringConvertible(id)
  {
    ToJsString(id)
  }

  /** How `processMessage` reads a message. */
  datatype Route =
    | Unreadable        // `res.id` on undefined or null throws
    | Notification      // no truthy `id`
    | Unkeyable         // `idMap[res.id]` throws: the id has no string form
    | Response(key: string)

  function RouteOf(msg: Value): (r: Route)
    ensures r.Unreadable? <==> IsNullish(msg)
    ensures r.Notification? <==> !IsNullish(msg) && !Truthy(Get(msg, "id"))
    ensures r.Unkeyable? <==> !IsNullish(msg) && Truthy(Get(msg, "id")) && !StringConvertible(Get(msg, "id"))
    ensures r.Response? ==>
      msg.Obj? && "id" in msg.props && StringConvertible(Get(msg, "id")) && r.key == KeyOf(Get(msg, "id"))
  {
    if IsNullish(msg) then Unreadable
    else if !Truthy(Get(msg, "id")) then Notification
    else if !StringConvertible(Get(msg, "id")) then Unkeyable
    else Response(KeyOf(Get(msg, "id")))
  }

  /** The error passed to the write callback. */
  datatype StreamFault =
    | UnknownResponseId(message: string)
    | TypeError

  function UnknownIdMessage(id: Value): string
    requires StringConvertible(id)
  {
    "StreamMiddleware: Unknown response id \"" + ToJsString(id) + "\""
  }

  /** What handling one message did. */
  datatype Delivery = Notified | Completed(entry: Pending) | Faulted(fault: StreamFault)

  /**
   * The table after a message and what became of the message. A matching
   * response removes exactly its own entry; nothing else touches the table.
   */
  function Deliver(table: map<string, Pending>, msg: Value): (r: (map<string, Pending>, Delivery))
    ensures r.1.Completed? <==> RouteOf(msg).Response? && RouteOf(msg).key in table
    ensures r.1.Completed? ==> r.1.entry == table[RouteOf(msg).key] && r.0 == table - {RouteOf(msg).key}
    ensures !r.1.Completed? ==> r.0 == table
    ensures r.1.Notified? <==> RouteOf(msg).Notification?
    ensures r.1 == Faulted(TypeError) <==>
      || RouteOf(msg).Unreadable?
      || RouteOf(msg).Unkeyable?
      || (RouteOf(msg).Response? && RouteOf(msg).key !in table && RouteOf(msg).key in InheritedNames)
    ensures r.1.Faulted? && r.1.fault.UnknownResponseId? ==>
      RouteOf(msg).Response? && r.1.fault.message == UnknownIdMessage(Get(msg, "id"))
  {
    match RouteOf(msg)
    case Unreadable => (table, Faulted(TypeError))
    case Notification => (table, Notified)
    case Unkeyable => (table, Faulted(TypeError))
    case Response(key) =>
      if key in table then (table - {key}, Completed(table[key]))
      else if key in InheritedNames then (table, Faulted(TypeError))
      else (table, Faulted(UnknownResponseId(UnknownIdMessage(Get(msg, "id")))))
  }

  /**
   * Filing a call and then receiving its response gives the table back
   * without that key and completes exactly the filed entry.
   */
  lemma RegisterThenRespond(table: map<string, Pending>, key: string, p: Pending, msg: Value)
    requires RouteOf(msg) == Response(key)
    ensures Deliver(table[key := p], msg) == (table - {key}, Completed(p))
    ensures key !in table ==> Deliver(table[key := p], msg).0 == table
  {
    assert table[key := p] - {key} == table - {key};
  }

  /** A response completes its call once; the same response again is a fault. */
  lemma ResponseCompletesOnce(table: map<string, Pending>, msg: Value)
    requires Deliver(table, msg).1.Completed?
    ensures Deliver(Deliver(table, msg).0, msg).1.Faulted?
    ensures Deliver(Deliver(table, msg).0, msg).0 == Deliver(table, msg).0
  {
  }

  /**
   * Order independence: two messages that are not responses for the same key
   * can be handled in either order with the same final table and the same
   * outcome for each.
   */
  lemma DeliveriesCommute(table: map<string, Pending>, m1: Value, m2: Value)
    requires !(RouteOf(m1).Response? && RouteOf(m2).Response? && RouteOf(m1).key == RouteOf(m2).key)
    ensures var (t1, d1) := Deliver(table, m1);
            var (t12, d2) := Deliver(t1, m2);
            var (t2, e2) := Deliver(table, m2);
            var (t21, e1) := Deliver(t2, m1);
            t12 == t21 && d1 == e1 && d2 == e2
  {
    if RouteOf(m1).Response? && RouteOf(m2).Response? {
      var k1, k2 := RouteOf(m1).key, RouteOf(m2).key;
      assert (table - {k1}) - {k2} == (table - {k2}) - {k1};
    }
  }

  /** Distinct integral ids, such as the remapped ones, never share an entry. */
  lemma IntegerIdsHaveDistinctKeys(a: SmallInt, b: SmallInt)
    requires a != b
    ensures KeyOf(Num(Int(a))) != KeyOf(Num(Int(b)))
  {
    if KeyOf(Num(Int(a))) == KeyOf(Num(Int(b))) {
      IntStringInjective(a, b);
    }
  }

  /** A numeric id and the string spelling it share one entry. */
  lemma NumericAndStringIdsShareKey(n: nat)
    requires n < IntSpellingLimit
    ensures KeyOf(Num(Int(n))) == KeyOf(Str(Decimal(n)))
  {
  }

  /**
   * A response whose id is 0 (or any other falsy value) takes the
   * notification path: it leaves the table as it was and completes nothing.
   */
  lemma FalsyIdIsNotification(table: map<string, Pending>, msg: Value)
    requires msg.Obj? && !Truthy(Get(msg, "id"))
    ensures Deliver(table, msg) == (table, Notified)
  {
  }

  /**
   * A response whose id is an object with its own `toString` key, such as
   * `{ id: { toString: "x" } }`, cannot be used as a key: it is a TypeError,
   * whatever the table holds, including an entry under "[object Object]".
   */
  lemma OwnToStringIdIsTypeError(table: map<string, Pending>, s: string)
    ensures var id := Obj(map["toString" := Field(Str(s), true)], Plain);
      Deliver(table, Obj(map["id" := Field(id, true)], Plain)) == (table, Faulted(TypeError))
  {
  }

  class StreamMiddleware {
    /** Pending calls keyed by the string form of their request id. */
    var idMap: map<string, Pending>
    /** Requests pushed onto the readable side of the stream, in order. */
    var outbound: seq<RpcObject>
    /** `end` callbacks handed to `setTimeout`, in order. */
    var scheduled: seq<Continuation>
    const events: SafeEventEmitter

    constructor ()
      ensures idMap == map[] && outbound == [] && scheduled == []
      ensures fresh(events) && events.events == Some(map[]) && events.invoked == []
    {
      idMap := map[];
      outbound := [];
      scheduled := [];
      events := new SafeEventEmitter();
    }

    /** The response objects of the pending calls. */
    function Responses(): set<RpcObject>
      reads this
    {
      set k | k in idMap :: idMap[k].res
    }

    /**
     * The middleware: push the request, then file it under its id. An id
     * with no string form makes the filing throw a TypeError after the push.
     */
    method Middleware(req: RpcObject, res: RpcObject, next: Continuation, end: Continuation)
      returns (err: Option<StreamFault>)
      modifies this`outbound, this`idMap
      ensures outbound == old(outbound) + [req]
      ensures StringConvertible(req.Prop("id")) ==>
        err == None && idMap == old(idMap)[KeyOf(req.Prop("id")) := Pending(req, res, next, end)]
      ensures !StringConvertible(req.Prop("id")) ==> err == Some(TypeError) && idMap == old(idMap)
    {
      outbound := outbound + [req];
      var id := req.Prop("id");
      if !StringConvertible(id) {
        return Some(TypeError);
      }
      idMap := idMap[KeyOf(id) := Pending(req, res, next, end)];
      return None;
    }

    method ProcessNotification(msg: Value)
      modifies events`invoked
      ensures events.invoked == old(events.invoked) + Calls(events.ListenersFor("notification"), [msg])
    {
      var _ := events.Emit("notification", [msg]);
    }

    method ProcessResponse(msg: Value) returns (err: Option<StreamFault>)
      requires !IsNullish(msg) && Truthy(Get(msg, "id"))
      modifies this`idMap, this`scheduled, Responses()
      ensures var (table, delivery) := Deliver(old(idMap), msg);
        && idMap == table
        && (delivery.Faulted? ==> err == Some(delivery.fault) && scheduled == old(scheduled))
        && (delivery.Completed? ==>
              && err == None
              && delivery.entry.res.fields == old(delivery.entry.res.fields) + OwnEnumerable(msg)
              && scheduled == old(scheduled) + [delivery.entry.end])
        && (forall o :: o in old(Responses()) && !(delivery.Completed? && o == delivery.entry.res) ==> o.fields == old(o.fields))
    {
      if !StringConvertible(Get(msg, "id")) {
        return Some(TypeError);
      }
      var key := KeyOf(Get(msg, "id"));
      if key !in idMap {
        if key in InheritedNames {
          // `context` is an Object.prototype member, `context.res` is undefined
          // and `Object.assign(undefined, res)` throws.
          return Some(TypeError);
        }
        return Some(UnknownResponseId(UnknownIdMessage(Get(msg, "id"))));
      }
      var context := idMap[key];
      idMap := idMap - {key};
      context.res.fields := context.res.fields + OwnEnumerable(msg);
      scheduled := scheduled + [context.end];
      return None;
    }

    /** The stream's `write`: whatever goes wrong is handed to the callback, never thrown. */
    method ProcessMessage(msg: Value) returns (err: Option<StreamFault>)
      modifies this`idMap, this`scheduled, events`invoked, Responses()
      ensures var (table, delivery) := Deliver(old(idMap), msg);
        && idMap == table
        && (delivery.Faulted? ==> err == Some(delivery.fault))
        && (!delivery.Faulted? ==> err == None)
        && (delivery.Notified? ==>
              events.invoked == old(events.invoked) + Calls(events.ListenersFor("notification"), [msg]))
        && (!delivery.Notified? ==> events.invoked == old(events.invoked))
        && (delivery.Completed? ==>
              && delivery.entry.res.fields == old(delivery.entry.res.fields) + OwnEnumerable(msg)
              && scheduled == old(scheduled) + [delivery.entry.end])
        && (!delivery.Completed? ==> scheduled == old(scheduled))
        && (forall o :: o in old(Responses()) && !(delivery.Completed? && o == delivery.entry.res) ==> o.fields == old(o.fields))
    {
      if IsNullish(msg) {
        return Some(TypeError);
      }
      if !Truthy(Get(msg, "id")) {
        ProcessNotification(msg);
        return None;
      }
      err := ProcessResponse(msg);
    }
  }
}

=== FILE: wrappers.dfy ===
/** Option and Result, used for absent fields and for operations that throw. */
module Wrappers {
  datatype Option<+T> = None | Some(value: T)

  /** The outcome of a JavaScript call that either returns a value or throws. */
  datatype Result<+T, +E> = Success(value: T) | Failure(error: E)
}
